=== FILE: README.md ===
# Live leaderboard model

A Dafny model of the mock "live" leaderboard of the C3 Crypto Collaborative
Cell site (`js/leaderboard.js`). The page keeps a list of player records in
memory. Every two seconds it ticks: it picks one record at random, raises its
`won` and `volume` and counts one more trade, and notes the player's name in
the `updatedPlayers` set. After each tick it re-ranks a copy of the list by
`won`, best first, and redraws the page:

- the three podium slots;
- the table body: the "You" row first, then a summary row and a details row
  for each ranked player;
- the flash highlight on the rows of updated players;
- the expanded ("active") row, which a redraw keeps.

A click listener on the table body expands and collapses summary rows.

Modules:

- `Players`: the player record, the ranked record and the seven seed records.
- `Ranking`: re-ranking as a stable sort on `won`, descending. The sort is
  proved equal to a declarative definition: sorted, with every group of
  equal `won` values kept in list order. Ranks are numbered 1..N.
- `Podium`: `updateTopThree` over three slots.
- `Table`: `updateTable` over a table body modelled as a sequence of rows.
  A summary row carries the `flash-update` and `active` classes as flags.
- `Clicks`: the click listener, as written and as evidently intended (see
  Findings).
- `Leaderboard`: the page state (list, podium, body, `updatedPlayers`), the
  initial load, a tick, a page click and the invariants these keep.

Two behaviours of the code are easy to misread; the model follows the code:

- A tick does not always strictly increase `won` and `volume`.
  `Math.random()` may return 0, so the model promises only that neither
  decreases.
- A redraw does not keep the "You" row where it was. The row is re-appended
  first, so it always ends up as the first row of the body.

## Model

| member | source | states |
|---|---|---|
| `Ranking.SortByWon` | js/leaderboard.js:106-107 | the re-sorted list is a permutation of the input (same multiset) and its `won` values never increase along the list |
| `Ranking.SortKeepsTies` | js/leaderboard.js:106-107 | for every `won` value, the records sharing it come out in the order they had in the input, as a stable `Array.prototype.sort` leaves them |
| `Ranking.StableSortIsUnique` | js/leaderboard.js:106-107 | two lists that are both stable descending sorts of the same input are equal, so the ranking is determined by the input alone |
| `Ranking.RankIsTheStableSort` | js/leaderboard.js:104-111 | any list that is a stable descending sort of the input is exactly the sequence of records the ranking produces |
| `Ranking.Rank` | js/leaderboard.js:104-111 | one ranked record per input record, rank i+1 at position i, the records a permutation of the input, in stable descending order of `won` |
| `Ranking.SortIsIdempotent` | js/leaderboard.js:106-107 | ranking an already ranked list changes nothing |
| `Ranking.SortedIsFixed` | js/leaderboard.js:106-107 | a list already in descending `won` order is returned unchanged |
| `Ranking.RankKeepsNames` | js/leaderboard.js:104-111 | ranking keeps the set of player names, and keeps them distinct when they were |
| `Podium.UpdateTopThree` | js/leaderboard.js:31-47 | slot i shows the name, volume and avatar of the i-th given record when there is one; otherwise it keeps its old content |
| `Leaderboard.PodiumShowsLeader` | js/leaderboard.js:113 | on a non-empty list the first podium slot shows a listed player who has won at least as much as every other, and that player is the record ranked 1 |
| `Table.FindUserRow` | js/leaderboard.js:51 | finds the first "You" row of the body, or reports that there is none |
| `Table.ActiveName` | js/leaderboard.js:54 | names the first expanded summary row, and is empty exactly when no row is expanded |
| `Table.UpdateTable` | js/leaderboard.js:50-101 | with a "You" row: the body becomes that row followed by a summary and a details row per ranked player (1+2N rows, no other "You" row). Each summary row shows its player's name, rank, won, trades, win rate and volume. It flashes iff the name was in the updated set, and is expanded iff it names the previously expanded player. Each details row shows the wallet and join date. The set is emptied. Without a "You" row: the body is left empty and the set is kept, since `appendChild(null)` throws after the body was cleared |
| `Table.RowsOf` | js/leaderboard.js:59-97 | row 2k is the k-th player's summary row and row 2k+1 their details row with wallet and join date |
| `Table.RebuildHasOneActive` | js/leaderboard.js:68-71 | with distinct names, a redraw expands at most one row |
| `Table.ActiveSurvivesRebuild` | js/leaderboard.js:54 | the expanded player, when still listed, is expanded again after the redraw |
| `Table.ActiveDropsWhenUnlisted` | js/leaderboard.js:54 | when the expanded player is no longer listed, the redraw leaves no row expanded |
| `Table.RebuildFlashesOnly` | js/leaderboard.js:63-66 | with distinct names and one name in the updated set, at most one row of the redraw flashes |
| `Table.FlashesListed` | js/leaderboard.js:63-66 | a listed player whose name is in the updated set gets a flashing summary row |
| `Clicks.CollapseAll` | js/leaderboard.js:139-141 | every row loses its active flag and nothing else changes |
| `Clicks.Toggle` | js/leaderboard.js:136-146 | clicking an expanded summary row leaves nothing expanded; clicking a collapsed one leaves exactly that row expanded; rows differ from before only in their active flag |
| `Clicks.ClickAsWritten` | js/leaderboard.js:118-147 | clicks outside a row, on a details row or on the "You" row change nothing; a click on a summary row toggles it and leaves at most one row expanded; a challenge-button click inside a summary row leaves the body unchanged and raises the alert naming that row's player, and no other click raises a notice |
| `Clicks.ChallengeNoticeUnreachable` | js/leaderboard.js:122-133 | as written, no click the page can produce raises the challenge alert |
| `Clicks.Owner` | js/leaderboard.js:61 | the player a row belongs to: a summary row's own name, a details row's owner above it, nobody for the "You" row |
| `Clicks.Click` | js/leaderboard.js:129-133 | a challenge-button click never toggles a row; on a details row's button it names the player of the summary row above, on the "You" row nobody; every other click behaves as `ClickAsWritten` |
| `Clicks.ClickAgreesOffButton` | js/leaderboard.js:118-147 | away from the challenge button the intended and the written listener agree |
| `Clicks.ClickKeepsOneActive` | js/leaderboard.js:135-146 | a click on a body with at most one expanded row leaves at most one |
| `Clicks.ChallengeOnRebuiltTable` | js/leaderboard.js:85-96 | on any redrawn table the k-th player's challenge button is a possible target; as written it raises nothing, as intended it names that player |
| `Leaderboard.UpdatePageData` | js/leaderboard.js:104-115 | the list is left as it was; the podium shows the top three ranked records; body and updated set are those of the table redraw over the ranking |
| `Leaderboard.PickIndex` | js/leaderboard.js:162 | `Math.floor(Math.random() * n)` with a draw in [0, 1): the index i with i <= draw * n < i + 1, which is below n |
| `Leaderboard.EveryIndexPickable` | js/leaderboard.js:162 | every record can be ticked: for each index i < n some draw in [0, 1), namely i / n, picks exactly i |
| `Leaderboard.Bump` | js/leaderboard.js:165-167 | one more trade, `won` up by less than 100 and `volume` by less than 50, neither down; no other field changes |
| `Leaderboard.Mutate` | js/leaderboard.js:161-170 | only the picked record changes: one more trade, `won` and `volume` not lower, name and other fields kept; its name joins the updated set; podium and body untouched |
| `Leaderboard.Tick` | js/leaderboard.js:161-174 | on an empty list nothing changes; otherwise the list is the mutated one, the podium shows the top three of its ranking (keeping slots with no record), and the body is the table redraw over that ranking with the ticked name in the updated set; with a "You" row the set ends empty, without one the body ends empty and the set keeps the ticked name |
| `Leaderboard.TickKeepsNames` | js/leaderboard.js:161-174 | a tick renames nobody and keeps the names distinct |
| `Leaderboard.TickFlashesOnlyTicked` | js/leaderboard.js:161-174 | from a page whose updated set is empty, a tick makes exactly one summary row flash, the ticked player's, and empties the set again |
| `Leaderboard.TickKeepsInv` | js/leaderboard.js:161-174 | a tick keeps the names distinct, at most one row expanded, and the updated set empty while the table has its "You" row |
| `Leaderboard.PageClick` | js/leaderboard.js:118-147 | the listener as written: a click touches only the body and only its rows' active flags, keeps it unchanged unless it toggles a summary row; clicking the expanded row collapses every row, clicking a collapsed one leaves exactly that row expanded; from a body with at most one expanded row leaves at most one, and no click the page can produce raises a challenge notice |
| `Leaderboard.PageClickIntended` | js/leaderboard.js:129-133 | the listener as evidently intended: the same toggle effects (the expanded row collapses, a collapsed one becomes the only expanded row, only active flags change), and a click on a details row's challenge button leaves the page unchanged and names the player of the summary row above it |
| `Leaderboard.PageClickKeepsInv` | js/leaderboard.js:118-147 | a click, as written or as intended, keeps the names distinct, at most one row expanded and the updated set empty while the "You" row is there |
| `Leaderboard.ReachableTickFlashesOnlyTicked` | js/leaderboard.js:161-174 | on every page the invariant holds for (so every page reached by load, ticks and clicks) with a "You" row, a tick makes exactly the ticked player's row flash |
| `Leaderboard.Load` | js/leaderboard.js:177 | the initial load keeps the list as given, leaves the updated set empty (it starts empty, line 23), fills the podium from the top three of the ranking and rebuilds the table over it |
| `Leaderboard.LoadEstablishesInv` | js/leaderboard.js:177 | loading a list with distinct names gives a page with distinct names, at most one row expanded and an empty updated set |
| `Leaderboard.SeedNamesUnique` | js/leaderboard.js:151-159 | the seven seed records have distinct names |
| `Leaderboard.SeedRanking` | js/leaderboard.js:151-159 | the seed list ranks as bernadette, marion, shannon, billy, alberta, leo, rudolph |
| `Leaderboard.SeedPodium` | js/leaderboard.js:177 | after the initial load the podium shows bernadette_mclaugh, marion_stiedemann and shannon_kautzer, in that order |

## Left out

- `formatNumber`, `toLocaleString` and `toFixed(2)`: cell text is not modelled. Rows carry the numbers themselves.
- Floating point: `won`, `volume` and `winRate` are exact reals. Rounding in `+=` and in the comparator `b.won - a.won` is not modelled.
- `Math.random()`: its three draws per tick are parameters in [0, 1).
- `setInterval` timing: a tick is one step. The model does not say when steps happen.
- `alert`: the challenge alert is returned as a notice naming the player. It is not shown.
- The DOM: `innerHTML`, `createElement`, `closest` and `querySelector` are abstracted. The body is a sequence of rows, and a click is given by the index of the row `closest('tr')` finds plus whether the target is a challenge button. The podium's DOM elements are three slots.
- The avatar, wallet and join-date markup, other than which row holds them.
- `js/script.js` and `js/blogscript.js`: other pages' visual effects, unrelated to the leaderboard.
- Leaderboard.Bump: promises that `won` and `volume` do not decrease rather than that they strictly increase, because `Math.random()` may return 0.

## Findings

| source | as written | input that shows it | evidently intended | confidence | as-written member | corrected member |
|---|---|---|---|---|---|---|
| js/leaderboard.js:122-133 | the details-row test returns before the challenge-button test; the button lives only in a details row, and a details row has no `data-player` | a click on the "Challenge" button of any player's details row: `closest('tr')` is that details row, so the listener returns at line 124 and no alert is shown | the button click is recognised first, toggles no row, and names the player whose details row holds it | not executed | `Clicks.ClickAsWritten`, `Clicks.ChallengeOnRebuiltTable` | `Clicks.Click`, `Leaderboard.PageClickIntended` |

=== FILE: clicks.dfy ===
/**
 * Click-to-expand on the table body (js/leaderboard.js:118-147).
 *
 * A click is delivered with the row `e.target.closest('tr')` finds, if any,
 * and whether the target itself is a challenge button. Clicking a summary
 * row collapses every expanded row and, unless the clicked row was the
 * expanded one, expands it. The challenge "alert" is returned as a notice
 * naming a player instead of being shown.
 */
module Clicks {
  import opened Wrappers
  import opened Players
  import opened Table

  /** Where a click lands: outside every row, or inside row `row`, maybe on its challenge button. */
  datatype Target = Outside | InRow(row: int, onChallenge: bool)

  /** The body after a click and the challenge notice it raised, if any. */
  datatype ClickResult = ClickResult(body: seq<Row>, notice: Option<string>)

  /**
   * A target the rebuilt page can produce: it lies in a row of the body, and a
   * challenge button is only ever found inside a details row (js/leaderboard.js:85-95).
   */
  predicate IsPossible(body: seq<Row>, t: Target) {
    t.InRow? ==> 0 <= t.row < |body| && (t.onChallenge ==> body[t.row].DetailsRow?)
  }

  /** The click reaches the expand/collapse code: a summary row, not on a button. */
  predicate Toggles(body: seq<Row>, t: Target) {
    t.InRow? && 0 <= t.row < |body| && body[t.row].SummaryRow? && !t.onChallenge
  }

  /** Two rows that differ at most in their "active" flag. */
  predicate SameButActive(a: Row, b: Row) {
    if a.SummaryRow? && b.SummaryRow? then a.(active := false) == b.(active := false) else a == b
  }

  /** Removes "active" from every row matching `tr.active` (js/leaderboard.js:139-141). */
  function CollapseAll(body: seq<Row>): (r: seq<Row>)
    ensures |r| == |body|
    ensures forall i :: 0 <= i < |r| ==> !IsActive(r[i]) && SameButActive(r[i], body[i])
  {
    seq(|body|, i requires 0 <= i < |body| =>
      if body[i].SummaryRow? then body[i].(active := false) else body[i])
  }

  /** The expand/collapse step on summary row `i` (js/leaderboard.js:136-146). */
  function Toggle(body: seq<Row>, i: int): (r: seq<Row>)
    requires 0 <= i < |body| && body[i].SummaryRow?
    ensures |r| == |body|
    ensures forall j :: 0 <= j < |r| ==> SameButActive(r[j], body[j])
    ensures body[i].active ==> forall j :: 0 <= j < |r| ==> !IsActive(r[j])
    ensures !body[i].active ==> forall j :: 0 <= j < |r| ==> (IsActive(r[j]) <==> j == i)
  {
    var collapsed := CollapseAll(body);
    if body[i].active then collapsed
    else collapsed[i := collapsed[i].(active := true)]
  }

  /**
   * The click listener as written. The details-row test runs before the
   * challenge-button test, and the button lives in a details row, so the
   * challenge branch is only reached by a target the page never produces.
   */
  function ClickAsWritten(body: seq<Row>, t: Target): (r: ClickResult)
    ensures |r.body| == |body|
    ensures forall j :: 0 <= j < |body| ==> SameButActive(r.body[j], body[j])
    ensures !Toggles(body, t) ==> r.body == body
    ensures Toggles(body, t) ==> AtMostOneActive(r.body)
    ensures Toggles(body, t) && IsActive(body[t.row]) ==> ActiveName(r.body).None?
    ensures Toggles(body, t) && !IsActive(body[t.row]) ==>
      forall j :: 0 <= j < |body| ==> (IsActive(r.body[j]) <==> j == t.row)
    ensures r.notice.Some? ==> t.InRow? && t.onChallenge && 0 <= t.row < |body| && body[t.row].SummaryRow?
    ensures t.InRow? && t.onChallenge && 0 <= t.row < |body| && body[t.row].SummaryRow? ==>
      r.notice == Some(body[t.row].name) && r.body == body
  {
    if t.Outside? || !(0 <= t.row < |body|) || body[t.row].DetailsRow? || body[t.row].UserRow? then
      ClickResult(body, None)
    else if t.onChallenge then
      ClickResult(body, Some(body[t.row].name))
    else
      ClickResult(Toggle(body, t.row), None)
  }

  /** As written, no click the page can produce raises the challenge notice. */
  lemma ChallengeNoticeUnreachable(body: seq<Row>, t: Target)
    requires IsPossible(body, t)
    ensures ClickAsWritten(body, t).notice.None?
  {
  }

  /** The player a row belongs to: its own name, or that of the summary row just above a details row. */
  function Owner(body: seq<Row>, i: int): (r: Option<string>)
    requires 0 <= i < |body|
    ensures body[i].SummaryRow? ==> r == Some(body[i].name)
    ensures body[i].DetailsRow? && i > 0 && body[i - 1].SummaryRow? ==> r == Some(body[i - 1].name)
    ensures body[i].UserRow? ==> r.None?
  {
    if body[i].SummaryRow? then Some(body[i].name)
    else if body[i].DetailsRow? && i > 0 && body[i - 1].SummaryRow? then Some(body[i - 1].name)
    else None
  }

  /**
   * The click listener as evidently intended: a click on a challenge button is
   * recognised first, never toggles a row, and names the player whose details
   * row holds the button. Every other click behaves as written.
   */
  function Click(body: seq<Row>, t: Target): (r: ClickResult)
    ensures |r.body| == |body|
    ensures forall j :: 0 <= j < |body| ==> SameButActive(r.body[j], body[j])
    ensures t.InRow? && t.onChallenge ==> r.body == body
    ensures !Toggles(body, t) ==> r.body == body
    ensures Toggles(body, t) ==> AtMostOneActive(r.body)
    ensures Toggles(body, t) && IsActive(body[t.row]) ==> ActiveName(r.body).None?
    ensures Toggles(body, t) && !IsActive(body[t.row]) ==>
      forall j :: 0 <= j < |body| ==> (IsActive(r.body[j]) <==> j == t.row)
    ensures r.notice.Some? ==> t.InRow? && t.onChallenge
    ensures t.InRow? && t.onChallenge && 0 < t.row < |body| && body[t.row].DetailsRow? && body[t.row - 1].SummaryRow? ==>
      r.notice == Some(body[t.row - 1].name)
    ensures t.InRow? && t.onChallenge && 0 <= t.row < |body| && body[t.row].UserRow? ==> r.notice.None?
  {
    if t.InRow? && t.onChallenge && 0 <= t.row < |body| then ClickResult(body, Owner(body, t.row))
    else ClickAsWritten(body, t)
  }

  /** Off the challenge button, the intended listener and the written one agree. */
  lemma ClickAgreesOffButton(body: seq<Row>, t: Target)
    requires !(t.InRow? && t.onChallenge)
    ensures Click(body, t) == ClickAsWritten(body, t)
  {
  }

  /** A click never leaves two rows expanded, from a body that had at most one. */
  lemma ClickKeepsOneActive(body: seq<Row>, t: Target)
    requires AtMostOneActive(body)
    ensures AtMostOneActive(Click(body, t).body)
    ensures AtMostOneActive(ClickAsWritten(body, t).body)
  {
  }

  /**
   * On any rebuilt table, the challenge button of the `k`-th ranked player is
   * a possible target. As written it raises no notice; the intended listener
   * names that player. Neither expands or collapses a row.
   */
  lemma ChallengeOnRebuiltTable(body: seq<Row>, updated: set<string>, ranked: seq<RankedPlayer>, k: int)
    requires FindUserRow(body).Some? && 0 <= k < |ranked|
    ensures var table := UpdateTable(body, updated, ranked).0;
      var t := InRow(2 + 2 * k, true);
      && IsPossible(table, t)
      && ClickAsWritten(table, t) == ClickResult(table, None)
      && Click(table, t) == ClickResult(table, Some(ranked[k].player.name))
  {
    var table := UpdateTable(body, updated, ranked).0;
    var t := InRow(2 + 2 * k, true);
    assert Shows(table[1 + 2 * k], ranked[k].player);
    assert table[2 + 2 * k].DetailsRow? && table[1 + 2 * k].SummaryRow? && table[1 + 2 * k].name == ranked[k].player.name;
    assert ClickAsWritten(table, t) == ClickResult(table, None);
    assert Owner(table, 2 + 2 * k) == Some(ranked[k].player.name);
  }
}

=== FILE: leaderboard.dfy ===
/**
 * The leaderboard page as a state machine (js/leaderboard.js:22-23, 103-177).
 *
 * The page state is the authoritative player list, the three podium slots,
 * the table body (which also holds the expanded-row state, as the source
 * keeps it in the rows' CSS classes) and the set of recently updated names.
 * A tick of the simulation takes its three `Math.random()` draws as
 * parameters.
 */
module Leaderboard {
  import opened Wrappers
  import opened Players
  import opened Ranking
  import opened Podium
  import opened Table
  import opened Clicks

  datatype Page = Page(players: seq<Player>, podium: Podium, body: seq<Row>, updated: set<string>)

  /**
   * What stays true of the page between events: names are distinct, at most
   * one row is expanded, and while the table has its user row every render
   * has used up the highlight set.
   */
  ghost predicate Inv(page: Page) {
    && UniqueNames(page.players)
    && AtMostOneActive(page.body)
    && (FindUserRow(page.body).Some? ==> page.updated == {})
  }

  function Min(a: int, b: int): int {
    if a <= b then a else b
  }

  /**
   * `updatePageData` on a snapshot of the list: rank it, refresh the podium
   * from the first three ranked records, rebuild the table. The snapshot is
   * a copy, so the authoritative list is not reordered.
   */
  function UpdatePageData(page: Page, snapshot: seq<Player>): (r: Page)
    ensures r.players == page.players
    ensures forall i :: 0 <= i < 3 && i < |snapshot| ==> r.podium[i] == SlotFor(Rank(snapshot)[i])
    ensures forall i :: |snapshot| <= i < 3 ==> r.podium[i] == page.podium[i]
    ensures r.body == UpdateTable(page.body, page.updated, Rank(snapshot)).0
    ensures r.updated == UpdateTable(page.body, page.updated, Rank(snapshot)).1
  {
    var ranked := Rank(snapshot);
    var podium := UpdateTopThree(page.podium, ranked[..Min(3, |ranked|)]);
    var table := UpdateTable(page.body, page.updated, ranked);
    page.(podium := podium, body := table.0, updated := table.1)
  }

  /** The record ranked first is in the list and has won at least as much as any other. */
  lemma LeaderWonMost(snapshot: seq<Player>)
    requires snapshot != []
    ensures Rank(snapshot)[0].player in snapshot
    ensures forall p :: p in snapshot ==> p.won <= Rank(snapshot)[0].player.won
  {
    var sorted := PlayersOf(Rank(snapshot));
    HeadWonMost(sorted, snapshot);
    assert Rank(snapshot)[0].player == sorted[0];
  }

  /** The first podium slot shows a record that has won at least as much as any other. */
  lemma PodiumShowsLeader(page: Page, snapshot: seq<Player>)
    requires snapshot != []
    ensures exists q :: q in snapshot && UpdatePageData(page, snapshot).podium[0] == SlotFor(RankedPlayer(q, 1))
                        && Rank(snapshot)[0] == RankedPlayer(q, 1)
                        && forall p :: p in snapshot ==> p.won <= q.won
  {
    LeaderWonMost(snapshot);
    var q := Rank(snapshot)[0].player;
    assert Rank(snapshot)[0] == RankedPlayer(q, 1);
    assert UpdatePageData(page, snapshot).podium[0] == SlotFor(RankedPlayer(q, 1));
  }

  /** The initial load: render the seed list onto the page as found. */
  function Load(seed: seq<Player>, podium: Podium, body: seq<Row>): (r: Page)
    ensures r.players == seed
    ensures r.updated == {}
    ensures forall i :: 0 <= i < 3 && i < |seed| ==> r.podium[i] == SlotFor(Rank(seed)[i])
    ensures forall i :: |seed| <= i < 3 ==> r.podium[i] == podium[i]
    ensures r.body == UpdateTable(body, {}, Rank(seed)).0
  {
    UpdatePageData(Page(seed, podium, body, {}), seed)
  }

  /** `Math.floor(Math.random() * n)`: an index of the list for a draw in [0, 1). */
  function PickIndex(n: nat, pick: real): (i: nat)
    requires n > 0 && 0.0 <= pick < 1.0
    ensures i < n
    ensures i as real <= pick * n as real < i as real + 1.0
  {
    ScaledDrawBelow(n, pick);
    (pick * n as real).Floor
  }

  /** A draw in [0, 1) scaled by `n` lies in [0, n). */
  lemma ScaledDrawBelow(n: nat, pick: real)
    requires n > 0 && 0.0 <= pick < 1.0
    ensures 0.0 <= pick * n as real < n as real
  {
    assert n as real - pick * n as real == (1.0 - pick) * n as real;
    assert (1.0 - pick) * n as real > 0.0;
  }

  /** Every record can be picked: the draw `i / n` picks index `i`. */
  lemma EveryIndexPickable(n: nat, i: nat)
    requires i < n
    ensures 0.0 <= i as real / n as real < 1.0
    ensures PickIndex(n, i as real / n as real) == i
  {
    var pick := i as real / n as real;
    assert pick * n as real == i as real;
    var j := PickIndex(n, pick);
    assert j as real <= i as real < j as real + 1.0;
  }

  /** The ticked record: `won` up by `100 * wonDraw`, `volume` by `50 * volumeDraw`, one more trade. */
  function Bump(p: Player, wonDraw: real, volumeDraw: real): (q: Player)
    requires 0.0 <= wonDraw < 1.0 && 0.0 <= volumeDraw < 1.0
    ensures q.trades == p.trades + 1
    ensures p.won <= q.won < p.won + 100.0 && p.volume <= q.volume < p.volume + 50.0
    ensures q == p.(won := q.won, volume := q.volume, trades := q.trades)
  {
    p.(won := p.won + wonDraw * 100.0, volume := p.volume + volumeDraw * 50.0, trades := p.trades + 1)
  }

  /**
   * The mutation half of `simulateDataUpdate` (js/leaderboard.js:162-170):
   * pick a record, bump it in place, and note its name as updated.
   */
  function Mutate(page: Page, pick: real, wonDraw: real, volumeDraw: real): (m: Page)
    requires 0.0 <= pick < 1.0 && 0.0 <= wonDraw < 1.0 && 0.0 <= volumeDraw < 1.0
    requires page.players != []
    ensures var i := PickIndex(|page.players|, pick);
      && |m.players| == |page.players|
      && m.players[i] == page.players[i].(won := m.players[i].won, volume := m.players[i].volume,
                                          trades := m.players[i].trades)
      && m.players[i].trades == page.players[i].trades + 1
      && page.players[i].won <= m.players[i].won
      && page.players[i].volume <= m.players[i].volume
      && (forall j :: 0 <= j < |page.players| && j != i ==> m.players[j] == page.players[j])
      && m.updated == page.updated + {page.players[i].name}
    ensures m.podium == page.podium && m.body == page.body
  {
    var i := PickIndex(|page.players|, pick);
    page.(players := page.players[i := Bump(page.players[i], wonDraw, volumeDraw)],
          updated := page.updated + {page.players[i].name})
  }

  /**
   * One tick of `simulateDataUpdate` with draws `pick`, `wonDraw` and
   * `volumeDraw`: mutate, then render a copy of the mutated list. On an
   * empty list, reading a field of `mockPlayers[0]` throws before anything
   * changed, so the page stays as it was.
   */
  function Tick(page: Page, pick: real, wonDraw: real, volumeDraw: real): (r: Page)
    requires 0.0 <= pick < 1.0 && 0.0 <= wonDraw < 1.0 && 0.0 <= volumeDraw < 1.0
    ensures page.players == [] ==> r == page
    ensures page.players != [] ==> r.players == Mutate(page, pick, wonDraw, volumeDraw).players
    ensures page.players != [] && FindUserRow(page.body).Some? ==> r.updated == {}
    ensures page.players != [] && FindUserRow(page.body).None? ==>
      r.body == [] && r.updated == page.updated + {page.players[PickIndex(|page.players|, pick)].name}
    ensures page.players != [] ==>
      var m := Mutate(page, pick, wonDraw, volumeDraw);
      && (forall i :: 0 <= i < 3 && i < |m.players| ==> r.podium[i] == SlotFor(Rank(m.players)[i]))
      && (forall i :: |m.players| <= i < 3 ==> r.podium[i] == page.podium[i])
      && r.body == UpdateTable(page.body, m.updated, Rank(m.players)).0
  {
    if page.players == [] then page
    else
      var m := Mutate(page, pick, wonDraw, volumeDraw);
      UpdatePageData(m, m.players)
  }

  /** A tick renames nobody, so the names of the list stay distinct. */
  lemma TickKeepsNames(page: Page, pick: real, wonDraw: real, volumeDraw: real)
    requires 0.0 <= pick < 1.0 && 0.0 <= wonDraw < 1.0 && 0.0 <= volumeDraw < 1.0
    ensures var r := Tick(page, pick, wonDraw, volumeDraw);
      |r.players| == |page.players| && forall j :: 0 <= j < |page.players| ==> r.players[j].name == page.players[j].name
    ensures UniqueNames(page.players) ==> UniqueNames(Tick(page, pick, wonDraw, volumeDraw).players)
  {
  }

  /**
   * A render whose highlight set holds one listed name makes exactly that
   * player's summary row flash, when the names are distinct.
   */
  lemma RenderFlashesOnly(page: Page, snapshot: seq<Player>, p: Player)
    requires FindUserRow(page.body).Some?
    requires UniqueNames(snapshot) && p in snapshot && page.updated == {p.name}
    ensures var body := UpdatePageData(page, snapshot).body;
      && (exists i :: 0 <= i < |body| && IsFlashing(body[i]) && body[i].name == p.name)
      && (forall i, j :: 0 <= i < |body| && 0 <= j < |body| && IsFlashing(body[i]) && IsFlashing(body[j]) ==> i == j)
  {
    var ranked := Rank(snapshot);
    RankKeepsNames(snapshot);
    RebuildFlashesOnly(page.body, p.name, ranked);
    assert p in multiset(snapshot);
    FlashesListed(page.body, p.name, ranked, p);
  }

  /**
   * Starting from a page whose highlight set was used up by the last render,
   * a tick makes exactly one summary row flash, the ticked player's, and
   * leaves the set empty again.
   */
  lemma TickFlashesOnlyTicked(page: Page, pick: real, wonDraw: real, volumeDraw: real)
    requires 0.0 <= pick < 1.0 && 0.0 <= wonDraw < 1.0 && 0.0 <= volumeDraw < 1.0
    requires page.players != [] && FindUserRow(page.body).Some?
    requires page.updated == {} && UniqueNames(page.players)
    ensures Tick(page, pick, wonDraw, volumeDraw).updated == {}
    ensures var body := Tick(page, pick, wonDraw, volumeDraw).body;
      exists i :: 0 <= i < |body| && IsFlashing(body[i]) && body[i].name == page.players[PickIndex(|page.players|, pick)].name
    ensures var body := Tick(page, pick, wonDraw, volumeDraw).body;
      forall i, j :: 0 <= i < |body| && 0 <= j < |body| && IsFlashing(body[i]) && IsFlashing(body[j]) ==> i == j
  {
    var m := Mutate(page, pick, wonDraw, volumeDraw);
    var i := PickIndex(|page.players|, pick);
    assert m.updated == {m.players[i].name};
    TickKeepsNames(page, pick, wonDraw, volumeDraw);
    RenderFlashesOnly(m, m.players, m.players[i]);
  }

  /**
   * Clicking the page with the listener as written: the body takes the
   * click, and no click the page can produce raises the challenge notice.
   */
  function PageClick(page: Page, t: Target): (r: (Page, Option<string>))
    ensures r.0.players == page.players && r.0.podium == page.podium && r.0.updated == page.updated
    ensures !Toggles(page.body, t) ==> r.0.body == page.body
    ensures AtMostOneActive(page.body) ==> AtMostOneActive(r.0.body)
    ensures IsPossible(page.body, t) ==> r.1.None?
    ensures |r.0.body| == |page.body| && forall j :: 0 <= j < |page.body| ==> SameButActive(r.0.body[j], page.body[j])
    ensures Toggles(page.body, t) && IsActive(page.body[t.row]) ==> ActiveName(r.0.body).None?
    ensures Toggles(page.body, t) && !IsActive(page.body[t.row]) ==>
      forall j :: 0 <= j < |page.body| ==> (IsActive(r.0.body[j]) <==> j == t.row)
  {
    var c := ClickAsWritten(page.body, t);
    (page.(body := c.body), c.notice)
  }

  /**
   * Clicking the page with the listener as evidently intended: a challenge
   * button click changes nothing on the page and names the button's player.
   */
  function PageClickIntended(page: Page, t: Target): (r: (Page, Option<string>))
    ensures r.0.players == page.players && r.0.podium == page.podium && r.0.updated == page.updated
    ensures !Toggles(page.body, t) ==> r.0.body == page.body
    ensures AtMostOneActive(page.body) ==> AtMostOneActive(r.0.body)
    ensures (t.InRow? && t.onChallenge && 0 < t.row < |page.body| && page.body[t.row].DetailsRow? &&
             page.body[t.row - 1].SummaryRow?) ==> r == (page, Some(page.body[t.row - 1].name))
    ensures |r.0.body| == |page.body| && forall j :: 0 <= j < |page.body| ==> SameButActive(r.0.body[j], page.body[j])
    ensures Toggles(page.body, t) && IsActive(page.body[t.row]) ==> ActiveName(r.0.body).None?
    ensures Toggles(page.body, t) && !IsActive(page.body[t.row]) ==>
      forall j :: 0 <= j < |page.body| ==> (IsActive(r.0.body[j]) <==> j == t.row)
  {
    var c := Click(page.body, t);
    (page.(body := c.body), c.notice)
  }

  /** A tick keeps the page invariant. */
  lemma TickKeepsInv(page: Page, pick: real, wonDraw: real, volumeDraw: real)
    requires 0.0 <= pick < 1.0 && 0.0 <= wonDraw < 1.0 && 0.0 <= volumeDraw < 1.0
    requires Inv(page)
    ensures Inv(Tick(page, pick, wonDraw, volumeDraw))
  {
    if page.players != [] {
      TickKeepsNames(page, pick, wonDraw, volumeDraw);
      RankKeepsNames(Mutate(page, pick, wonDraw, volumeDraw).players);
    }
  }

  /** Loading a list with distinct names establishes the page invariant. */
  lemma LoadEstablishesInv(seed: seq<Player>, podium: Podium, body: seq<Row>)
    requires UniqueNames(seed)
    ensures Inv(Load(seed, podium, body))
  {
    RankKeepsNames(seed);
  }

  /** A body that differs from another only in active flags has a user row only if the other has. */
  lemma UserRowKept(before: seq<Row>, after: seq<Row>)
    requires |after| == |before|
    requires forall j :: 0 <= j < |before| ==> SameButActive(after[j], before[j])
    ensures FindUserRow(after).Some? ==> FindUserRow(before).Some?
  {
    if FindUserRow(after).Some? {
      var i :| 0 <= i < |after| && after[i] == FindUserRow(after).value;
      assert SameButActive(after[i], before[i]);
      assert before[i].UserRow?;
    }
  }

  /** A click, as written or as intended, keeps the page invariant. */
  lemma PageClickKeepsInv(page: Page, t: Target)
    requires Inv(page)
    ensures Inv(PageClick(page, t).0)
    ensures Inv(PageClickIntended(page, t).0)
  {
    UserRowKept(page.body, ClickAsWritten(page.body, t).body);
    UserRowKept(page.body, Click(page.body, t).body);
  }

  /**
   * On every page the invariant describes, in particular every page reached
   * from the initial load by ticks and clicks, a tick with the user row
   * present makes exactly the ticked player's row flash.
   */
  lemma ReachableTickFlashesOnlyTicked(page: Page, pick: real, wonDraw: real, volumeDraw: real)
    requires 0.0 <= pick < 1.0 && 0.0 <= wonDraw < 1.0 && 0.0 <= volumeDraw < 1.0
    requires Inv(page) && page.players != [] && FindUserRow(page.body).Some?
    ensures var body := Tick(page, pick, wonDraw, volumeDraw).body;
      exists i :: 0 <= i < |body| && IsFlashing(body[i]) && body[i].name == page.players[PickIndex(|page.players|, pick)].name
    ensures var body := Tick(page, pick, wonDraw, volumeDraw).body;
      forall i, j :: 0 <= i < |body| && 0 <= j < |body| && IsFlashing(body[i]) && IsFlashing(body[j]) ==> i == j
  {
    TickFlashesOnlyTicked(page, pick, wonDraw, volumeDraw);
  }

  /** The seed players have distinct names. */
  lemma SeedNamesUnique()
    ensures UniqueNames(Seed)
  {
  }

  /** One step of the seed sort: `x` slips in right behind the current leader `h`. */
  lemma SortStep(x: Player, h: Player, s: seq<Player>, rest: seq<Player>)
    requires h.won > x.won
    requires SortByWon(s) == [h] + rest
    requires rest == [] || x.won >= rest[0].won
    ensures SortByWon([x] + s) == [h] + ([x] + rest)
  {
    SortUnfold(x, s);
    InsertPastHead(x, h, rest);
    InsertAtFront(x, rest);
  }

  /** The two ways of writing the seed list and its ranked order used below. */
  lemma SevenShapes(p0: Player, p1: Player, p2: Player, p3: Player, p4: Player, p5: Player, p6: Player)
    ensures [p0, p1, p2, p3, p4, p5, p6] == [p0] + ([p1] + ([p2] + ([p3] + [p4, p5, p6])))
    ensures [p3, p0, p1, p2, p4, p5, p6] == [p3] + ([p0] + ([p1] + ([p2] + [p4, p5, p6])))
  {
  }

  /** The last five seed records sort with their fourth-best ahead of the first. */
  lemma SortLastFive(p2: Player, p3: Player, t4: seq<Player>)
    requires p3.won > p2.won
    requires SortedByWon([p3] + t4) && (t4 == [] || p2.won >= t4[0].won)
    ensures SortByWon([p2] + ([p3] + t4)) == [p3] + ([p2] + t4)
  {
    SortedIsFixed([p3] + t4);
    SortStep(p2, p3, [p3] + t4, t4);
  }

  /** Four records in strictly decreasing `won` order are sorted. */
  lemma FourSorted(p3: Player, p4: Player, p5: Player, p6: Player)
    requires p3.won > p4.won > p5.won > p6.won
    ensures SortedByWon([p3] + [p4, p5, p6])
  {
  }

  /**
   * Sorting seven records whose `won` values stand in the order the seed
   * list's do: the fourth comes first, then the first three, then the rest.
   */
  lemma SortSeedShape(p0: Player, p1: Player, p2: Player, p3: Player, p4: Player, p5: Player, p6: Player)
    requires p3.won > p0.won > p1.won > p2.won > p4.won > p5.won > p6.won
    ensures SortByWon([p0, p1, p2, p3, p4, p5, p6]) == [p3, p0, p1, p2, p4, p5, p6]
  {
    var t4 := [p4, p5, p6];
    FourSorted(p3, p4, p5, p6);
    SortLastFive(p2, p3, t4);
    var t2 := [p2] + ([p3] + t4);
    SortStep(p1, p3, t2, [p2] + t4);
    SortStep(p0, p3, [p1] + t2, [p1] + ([p2] + t4));
    SevenShapes(p0, p1, p2, p3, p4, p5, p6);
  }

  /** The seed list in ranked order: 5700.00, 3000.50, 1950.20, 1800.00, 1650.00, 1500.00, 1400.00. */
  lemma SeedRanking()
    ensures PlayersOf(Rank(Seed)) == [Bernadette, Marion, Shannon, Billy, Alberta, Leo, Rudolph]
  {
    SortSeedShape(Marion, Shannon, Billy, Bernadette, Alberta, Leo, Rudolph);
  }

  /** The first three ranked records of the seed list. */
  lemma SeedTopThree()
    ensures |Rank(Seed)| == 7
    ensures Rank(Seed)[0].player == Bernadette && Rank(Seed)[1].player == Marion && Rank(Seed)[2].player == Shannon
  {
    var ranked := Rank(Seed);
    SeedRanking();
    assert PlayersOf(ranked)[0] == Bernadette && PlayersOf(ranked)[1] == Marion && PlayersOf(ranked)[2] == Shannon;
  }

  /** After the initial load the podium shows the three biggest winners, best first. */
  lemma SeedPodium(podium: Podium, body: seq<Row>)
    ensures var shown := Load(Seed, podium, body).podium;
      && shown[0].username == "bernadette_mclaugh"
      && shown[1].username == "marion_stiedemann"
      && shown[2].username == "shannon_kautzer"
  {
    SeedTopThree();
    var shown := Load(Seed, podium, body).podium;
    assert shown[0] == SlotFor(Rank(Seed)[0]) && shown[1] == SlotFor(Rank(Seed)[1]) && shown[2] == SlotFor(Rank(Seed)[2]);
  }
}

=== FILE: players.dfy ===
/**
 * Player records of the mock leaderboard (js/leaderboard.js:151-159).
 *
 * The source keeps `won`, `volume` and `winRate` as JavaScript numbers; here
 * they are exact reals, so the comparator `b.won - a.won` has its
 * mathematical sign. The derived `rank` is kept apart from the record it
 * annotates, so that "ranking only adds a rank" is visible in the types.
 */
module Players {

  datatype Player = Player(
    name: string,       // the `player` field: display name and identity key
    won: real,
    trades: int,
    winRate: real,
    volume: real,
    avatarUrl: string,
    wallet: string,
    joined: string
  )

  /** A record of the ranked copy: the record spread into a fresh object plus `rank`. */
  datatype RankedPlayer = RankedPlayer(player: Player, rank: nat)

  /** The records of a ranked list, without their ranks. */
  function PlayersOf(ranked: seq<RankedPlayer>): (ps: seq<Player>)
    ensures |ps| == |ranked|
    ensures forall i :: 0 <= i < |ranked| ==> ps[i] == ranked[i].player
  {
    seq(|ranked|, i requires 0 <= i < |ranked| => ranked[i].player)
  }

  /** No two records share a display name; the name is the identity key of every UI flag. */
  ghost predicate UniqueNames(ps: seq<Player>) {
    forall i, j :: 0 <= i < j < |ps| ==> ps[i].name != ps[j].name
  }

  /** The set of display names in a list of records. */
  function Names(ps: seq<Player>): (ns: set<string>)
    ensures forall i :: 0 <= i < |ps| ==> ps[i].name in ns
    ensures forall n :: n in ns ==> exists i :: 0 <= i < |ps| && ps[i].name == n
  {
    set i | 0 <= i < |ps| :: ps[i].name
  }

  /** The seven seed records the page starts with (js/leaderboard.js:151-159). */
  const Marion := Player("marion_stiedemann", 3000.50, 5, 34.07, 1671.57,
    "https://api.dicebear.com/8.x/pixel-art/svg?seed=marion", "0x...a1b2", "2025-10-20")
  const Shannon := Player("shannon_kautzer", 1950.20, 5, 34.07, 1671.57,
    "https://api.dicebear.com/8.x/pixel-art/svg?seed=shannon", "0x...c3d4", "2025-10-21")
  const Billy := Player("billy_mraz", 1800.00, 5, 34.07, 1671.57,
    "https://api.dicebear.com/8.x/pixel-art/svg?seed=billy", "0x...e5f6", "2025-10-22")
  const Bernadette := Player("bernadette_mclaugh", 5700.00, 5, 34.07, 1500.56,
    "https://api.dicebear.com/8.x/pixel-art/svg?seed=bernadette", "0x...g7h8", "2025-10-23")
  const Alberta := Player("alberta_spencer", 1650.00, 5, 34.07, 1400.56,
    "https://api.dicebear.com/8.x/pixel-art/svg?seed=alberta", "0x...i9j0", "2025-10-24")
  const Leo := Player("leo_ruecker", 1500.00, 5, 34.07, 1300.56,
    "https://api.dicebear.com/8.x/pixel-art/svg?seed=leo", "0x...k1l2", "2025-10-25")
  const Rudolph := Player("rudolph_boehm", 1400.00, 5, 34.07, 1200.56,
    "https://api.dicebear.com/8.x/pixel-art/svg?seed=rudolph", "0x...m3n4", "2025-10-26")

  const Seed: seq<Player> := [Marion, Shannon, Billy, Bernadette, Alberta, Leo, Rudolph]
}

=== FILE: podium.dfy ===
/**
 * The three "top player" display slots (`updateTopThree`, js/leaderboard.js:31-47).
 *
 * Each slot shows a name, a volume and an avatar reference. The source
 * destructures the first three ranked records and overwrites slot i only
 * when an i-th record exists, so with fewer than three players the later
 * slots keep whatever they showed before. The volume is kept as the number
 * itself; its locale formatting is not part of this model.
 */
module Podium {
  import opened Players

  datatype Slot = Slot(username: string, volume: real, avatar: string)

  const BlankSlot: Slot := Slot("", 0.0, "")

  /** The fixed row of three slots: `#top-1`, `#top-2`, `#top-3`. */
  type Podium = s: seq<Slot> | |s| == 3 witness [BlankSlot, BlankSlot, BlankSlot]

  /** What a slot shows for a ranked record. */
  function SlotFor(p: RankedPlayer): (s: Slot)
    ensures s.username == p.player.name && s.volume == p.player.volume && s.avatar == p.player.avatarUrl
  {
    Slot(p.player.name, p.player.volume, p.player.avatarUrl)
  }

  /**
   * Writes the records of `top` (at most three of them, best first) into the
   * slots; a slot with no record to show keeps its old content.
   */
  function UpdateTopThree(podium: Podium, top: seq<RankedPlayer>): (r: Podium)
    ensures forall i :: 0 <= i < 3 && i < |top| ==> r[i] == SlotFor(top[i])
    ensures forall i :: |top| <= i < 3 ==> r[i] == podium[i]
  {
    var first := if |top| > 0 then SlotFor(top[0]) else podium[0];
    var second := if |top| > 1 then SlotFor(top[1]) else podium[1];
    var third := if |top| > 2 then SlotFor(top[2]) else podium[2];
    [first, second, third]
  }
}

=== FILE: ranking.dfy ===
/**
 * Re-ranking of the leaderboard (`updatePageData`, js/leaderboard.js:104-111).
 *
 * The source sorts a copy of the list with `sort((a, b) => b.won - a.won)`
 * and then numbers the records 1, 2, ... in their new order. JavaScript's
 * `Array.prototype.sort` is stable, so records with equal `won` keep their
 * relative order. The model sorts with a stable insertion sort and proves it
 * equal to the one sequence that the declarative description
 * `IsStableSortOf` admits.
 */
module Ranking {
  import opened Players

  /** Non-increasing by `won`: the order the comparator `b.won - a.won` asks for. */
  ghost predicate SortedByWon(s: seq<Player>) {
    forall i, j :: 0 <= i < j < |s| ==> s[i].won >= s[j].won
  }

  /** The records of `s` whose `won` equals `w`, in the order they occur in `s`. */
  function Ties(s: seq<Player>, w: real): (t: seq<Player>)
    ensures forall i :: 0 <= i < |t| ==> t[i].won == w
  {
    if s == [] then []
    else if s[0].won == w then [s[0]] + Ties(s[1..], w)
    else Ties(s[1..], w)
  }

  /**
   * `r` is a stable sort of `s` by descending `won`: it is ordered, and every
   * group of equal `won` appears in `r` exactly as it appears in `s`. (The
   * second conjunct already makes `r` a permutation of `s`.)
   */
  ghost predicate IsStableSortOf(r: seq<Player>, s: seq<Player>) {
    SortedByWon(r) && forall w :: Ties(r, w) == Ties(s, w)
  }

  /**
   * Inserts `x` in front of the first record that has won no more than it,
   * so `x` goes before the records it ties with.
   */
  function Insert(x: Player, t: seq<Player>): (r: seq<Player>)
    ensures |r| == |t| + 1
    ensures r[0] == x || (t != [] && r[0] == t[0])
    ensures SortedByWon(t) ==> SortedByWon(r)
  {
    if t == [] || x.won >= t[0].won then
      SortedCons(x, t);
      [x] + t
    else
      var rest := Insert(x, t[1..]);
      assert t == [t[0]] + t[1..];
      assert SortedByWon(t) ==> SortedByWon(t[1..]) && (t[1..] == [] || t[0].won >= t[1..][0].won);
      SortedCons(t[0], rest);
      [t[0]] + rest
  }

  /** A record that has won at least as much as the head of an ordered list may head it. */
  lemma SortedCons(h: Player, rest: seq<Player>)
    ensures SortedByWon(rest) && (rest == [] || h.won >= rest[0].won) ==> SortedByWon([h] + rest)
  {
    if SortedByWon(rest) && (rest == [] || h.won >= rest[0].won) {
      var s := [h] + rest;
      forall i, j | 0 <= i < j < |s| ensures s[i].won >= s[j].won {
        if i == 0 {
          assert s[j] == rest[j - 1];
          assert rest[0].won >= rest[j - 1].won || j == 1;
        } else {
          assert s[i] == rest[i - 1] && s[j] == rest[j - 1];
        }
      }
    }
  }

  /** `x` goes straight to the front of a list whose head has won no more than it. */
  lemma InsertAtFront(x: Player, t: seq<Player>)
    requires t == [] || x.won >= t[0].won
    ensures Insert(x, t) == [x] + t
  {
  }

  /** `x` moves past a head that has won strictly more. */
  lemma InsertPastHead(x: Player, h: Player, t: seq<Player>)
    requires h.won > x.won
    ensures Insert(x, [h] + t) == [h] + Insert(x, t)
  {
    assert ([h] + t)[1..] == t;
  }

  /** Sorting a list with a head inserts the head into the sorted tail. */
  lemma SortUnfold(x: Player, s: seq<Player>)
    ensures SortByWon([x] + s) == Insert(x, SortByWon(s))
  {
    assert ([x] + s)[1..] == s;
  }

  /** A list already in leaderboard order comes out of the sort unchanged. */
  lemma {:induction false} SortedIsFixed(s: seq<Player>)
    requires SortedByWon(s)
    ensures SortByWon(s) == s
    decreases |s|
  {
    if s != [] {
      SortedIsFixed(s[1..]);
      assert s == [s[0]] + s[1..];
      InsertAtFront(s[0], s[1..]);
    }
  }

  /** Re-ranking a ranked list keeps its order: the sort is idempotent. */
  lemma SortIsIdempotent(s: seq<Player>)
    ensures SortByWon(SortByWon(s)) == SortByWon(s)
  {
    SortedIsFixed(SortByWon(s));
  }

  /** Inserting adds exactly `x`: the result is a permutation of `t` plus `x`. */
  lemma {:induction false} InsertPermutes(x: Player, t: seq<Player>)
    ensures multiset(Insert(x, t)) == multiset(t) + multiset{x}
    decreases |t|
  {
    if t == [] || x.won >= t[0].won {
      assert Insert(x, t) == [x] + t;
    } else {
      var rest := Insert(x, t[1..]);
      InsertPermutes(x, t[1..]);
      assert Insert(x, t) == [t[0]] + rest;
      assert t == [t[0]] + t[1..];
      assert multiset(t) == multiset{t[0]} + multiset(t[1..]);
      assert multiset(Insert(x, t)) == multiset{t[0]} + multiset(rest);
    }
  }

  /** The head of a sorted permutation of `s` is in `s` and has won at least as much as any record of `s`. */
  lemma HeadWonMost(sorted: seq<Player>, s: seq<Player>)
    requires sorted != [] && SortedByWon(sorted) && multiset(sorted) == multiset(s)
    ensures sorted[0] in s
    ensures forall p :: p in s ==> p.won <= sorted[0].won
  {
    assert sorted[0] in multiset(s);
    forall p | p in s ensures p.won <= sorted[0].won {
      assert p in multiset(sorted);
      var j :| 0 <= j < |sorted| && sorted[j] == p;
      assert j == 0 || sorted[0].won >= sorted[j].won;
    }
  }

  /** Stable insertion sort by descending `won`. */
  function SortByWon(s: seq<Player>): (r: seq<Player>)
    ensures |r| == |s|
    ensures multiset(r) == multiset(s)
    ensures SortedByWon(r)
  {
    if s == [] then []
    else
      assert s == [s[0]] + s[1..];
      InsertPermutes(s[0], SortByWon(s[1..]));
      Insert(s[0], SortByWon(s[1..]))
  }

  /** Inserting `x` adds it in front of its ties and leaves every other group alone. */
  lemma {:induction false} InsertTies(x: Player, t: seq<Player>, w: real)
    ensures Ties(Insert(x, t), w) == (if x.won == w then [x] else []) + Ties(t, w)
    decreases |t|
  {
    if t == [] || x.won >= t[0].won {
      assert Insert(x, t) == [x] + t;
      assert ([x] + t)[1..] == t;
    } else {
      var rest := Insert(x, t[1..]);
      assert Insert(x, t) == [t[0]] + rest;
      assert ([t[0]] + rest)[1..] == rest;
      InsertTies(x, t[1..], w);
    }
  }

  /** Sorting keeps every group of equal `won` in its input order: the sort is stable. */
  lemma {:induction false} SortKeepsTies(s: seq<Player>, w: real)
    ensures Ties(SortByWon(s), w) == Ties(s, w)
    decreases |s|
  {
    if s != [] {
      SortKeepsTies(s[1..], w);
      InsertTies(s[0], SortByWon(s[1..]), w);
    }
  }

  /** The insertion sort meets the declarative description of a stable sort. */
  lemma SortByWonIsStableSort(s: seq<Player>)
    ensures IsStableSortOf(SortByWon(s), s)
  {
    forall w ensures Ties(SortByWon(s), w) == Ties(s, w) {
      SortKeepsTies(s, w);
    }
  }

  /** In an ordered list that has a record with `won == w`, the head has won at least `w`. */
  lemma {:induction false} HeadBoundsTies(s: seq<Player>, w: real)
    requires SortedByWon(s)
    requires Ties(s, w) != []
    ensures s != [] && s[0].won >= w
    decreases |s|
  {
    if s != [] && s[0].won != w {
      HeadBoundsTies(s[1..], w);
    }
  }

  /** Two ordered lists with the same groups of ties are the same list. */
  lemma {:induction false} SameTiesSameList(a: seq<Player>, b: seq<Player>)
    requires SortedByWon(a) && SortedByWon(b)
    requires forall w :: Ties(a, w) == Ties(b, w)
    ensures a == b
    decreases |a|
  {
    if a != [] {
      assert Ties(a, a[0].won) != [];
      HeadBoundsTies(b, a[0].won);
      assert Ties(b, b[0].won) != [];
      HeadBoundsTies(a, b[0].won);
      var m := a[0].won;
      assert b[0].won == m;
      assert Ties(a, m) == [a[0]] + Ties(a[1..], m);
      assert Ties(b, m) == [b[0]] + Ties(b[1..], m);
      assert a[0] == Ties(a, m)[0] == Ties(b, m)[0] == b[0];
      forall w ensures Ties(a[1..], w) == Ties(b[1..], w) {
        assert Ties(a, w) == Ties(b, w);
        if w == m {
          assert Ties(a[1..], w) == Ties(a, w)[1..];
          assert Ties(b[1..], w) == Ties(b, w)[1..];
        }
      }
      SameTiesSameList(a[1..], b[1..]);
      assert a == [a[0]] + a[1..] && b == [b[0]] + b[1..];
    }
  }

  /** A stable sort by descending `won` is unique. */
  lemma StableSortIsUnique(r1: seq<Player>, r2: seq<Player>, s: seq<Player>)
    requires IsStableSortOf(r1, s) && IsStableSortOf(r2, s)
    ensures r1 == r2
  {
    forall w ensures Ties(r1, w) == Ties(r2, w) {
      assert Ties(r1, w) == Ties(s, w) == Ties(r2, w);
    }
    SameTiesSameList(r1, r2);
  }

  /** Numbers an ordered list 1, 2, ... (the `map` of js/leaderboard.js:108-111). */
  function Number(sorted: seq<Player>): (r: seq<RankedPlayer>)
    ensures |r| == |sorted|
    ensures forall i :: 0 <= i < |r| ==> r[i].rank == i + 1
    ensures PlayersOf(r) == sorted
  {
    seq(|sorted|, i requires 0 <= i < |sorted| => RankedPlayer(sorted[i], i + 1))
  }

  /**
   * The ranked copy of `players`: ordered by descending `won`, ties in input
   * order, each record unchanged except for its new 1-based `rank`.
   */
  function Rank(players: seq<Player>): (r: seq<RankedPlayer>)
    ensures |r| == |players|
    ensures forall i :: 0 <= i < |r| ==> r[i].rank == i + 1
    ensures multiset(PlayersOf(r)) == multiset(players)
    ensures IsStableSortOf(PlayersOf(r), players)
  {
    SortByWonIsStableSort(players);
    Number(SortByWon(players))
  }

  /** Any list that is a stable sort of the input is exactly what `Rank` yields. */
  lemma RankIsTheStableSort(players: seq<Player>, r: seq<Player>)
    requires IsStableSortOf(r, players)
    ensures PlayersOf(Rank(players)) == r
  {
    StableSortIsUnique(PlayersOf(Rank(players)), r, players);
  }

  /** Inserting a record under a fresh name into a list of distinct names keeps the names distinct. */
  lemma {:induction false} InsertKeepsNamesUnique(x: Player, t: seq<Player>)
    requires UniqueNames(t)
    requires forall k :: 0 <= k < |t| ==> t[k].name != x.name
    ensures UniqueNames(Insert(x, t))
    decreases |t|
  {
    if !(t == [] || x.won >= t[0].won) {
      var rest := Insert(x, t[1..]);
      InsertKeepsNamesUnique(x, t[1..]);
      InsertPermutes(x, t[1..]);
      forall k | 0 <= k < |rest| ensures rest[k].name != t[0].name {
        assert rest[k] in multiset(rest);
        if rest[k] != x {
          var j :| 0 <= j < |t[1..]| && t[1..][j] == rest[k];
          assert t[j + 1] == rest[k];
        }
      }
      assert Insert(x, t) == [t[0]] + rest;
    }
  }

  /** Sorting keeps the names of a list distinct. */
  lemma {:induction false} SortKeepsNamesUnique(s: seq<Player>)
    requires UniqueNames(s)
    ensures UniqueNames(SortByWon(s))
    decreases |s|
  {
    if s != [] {
      var sorted := SortByWon(s[1..]);
      SortKeepsNamesUnique(s[1..]);
      forall k | 0 <= k < |sorted| ensures sorted[k].name != s[0].name {
        assert sorted[k] in multiset(s[1..]);
        var j :| 0 <= j < |s[1..]| && s[1..][j] == sorted[k];
        assert s[j + 1] == sorted[k];
      }
      InsertKeepsNamesUnique(s[0], sorted);
    }
  }

  /** Ranking neither adds nor drops a name, and keeps distinct names distinct. */
  lemma RankKeepsNames(players: seq<Player>)
    ensures Names(PlayersOf(Rank(players))) == Names(players)
    ensures UniqueNames(players) ==> UniqueNames(PlayersOf(Rank(players)))
  {
    var ranked := PlayersOf(Rank(players));
    forall n | n in Names(ranked) ensures n in Names(players) {
      var i :| 0 <= i < |ranked| && ranked[i].name == n;
      assert ranked[i] in multiset(players);
    }
    forall n | n in Names(players) ensures n in Names(ranked) {
      var i :| 0 <= i < |players| && players[i].name == n;
      assert players[i] in multiset(ranked);
    }
    if UniqueNames(players) {
      SortKeepsNamesUnique(players);
    }
  }
}

=== FILE: table.dfy ===
/**
 * The leaderboard table body and its rebuild (`updateTable`,
 * js/leaderboard.js:50-101).
 *
 * The `<tbody>` is a list of row records. The reserved "current user" row
 * is opaque. A summary row carries a player's cells, the `data-player` name
 * that identifies it, and its two CSS flags: "flash-update" and "active". A
 * details row carries the wallet and join date, and it holds the challenge
 * button.
 */
module Table {
  import opened Wrappers
  import opened Players

  datatype Row =
    | UserRow(cells: string)
    | SummaryRow(name: string, rank: nat, won: real, trades: int, winRate: real, volume: real,
                 flash: bool, active: bool)
    | DetailsRow(wallet: string, joined: string)

  /** The row matches the selector `tr.active`. */
  predicate IsActive(row: Row) {
    row.SummaryRow? && row.active
  }

  /** The row carries the one-shot "flash-update" class. */
  predicate IsFlashing(row: Row) {
    row.SummaryRow? && row.flash
  }

  /** At most one row of the body is expanded. */
  ghost predicate AtMostOneActive(body: seq<Row>) {
    forall i, j :: 0 <= i < |body| && 0 <= j < |body| && IsActive(body[i]) && IsActive(body[j]) ==> i == j
  }

  /** The first row matching `.user-row`, if any (js/leaderboard.js:51). */
  function FindUserRow(body: seq<Row>): (r: Option<Row>)
    ensures r.Some? ==> r.value.UserRow? && r.value in body
    ensures r.None? <==> forall i :: 0 <= i < |body| ==> !body[i].UserRow?
    ensures r.Some? ==> exists i :: 0 <= i < |body| && body[i] == r.value
                          && forall j :: 0 <= j < i ==> !body[j].UserRow?
  {
    if body == [] then None
    else if body[0].UserRow? then Some(body[0])
    else
      var r := FindUserRow(body[1..]);
      assert forall i :: 1 <= i < |body| ==> body[i] == body[1..][i - 1];
      r
  }

  /** The `data-player` of the first row matching `tr.active`, if any (js/leaderboard.js:54). */
  function ActiveName(body: seq<Row>): (r: Option<string>)
    ensures r.None? <==> forall i :: 0 <= i < |body| ==> !IsActive(body[i])
    ensures r.Some? ==> exists i :: 0 <= i < |body| && IsActive(body[i]) && body[i].name == r.value
                          && forall j :: 0 <= j < i ==> !IsActive(body[j])
  {
    if body == [] then None
    else if IsActive(body[0]) then Some(body[0].name)
    else
      var r := ActiveName(body[1..]);
      assert forall i :: 1 <= i < |body| ==> body[i] == body[1..][i - 1];
      r
  }

  /** `row` is a summary row showing the name, won, trades, win rate and volume of `p` (js/leaderboard.js:75-80). */
  predicate Shows(row: Row, p: Player) {
    && row.SummaryRow? && row.name == p.name && row.won == p.won && row.trades == p.trades
    && row.winRate == p.winRate && row.volume == p.volume
  }

  /** The summary row a ranked record gets in a rebuild (js/leaderboard.js:60-81). */
  function SummaryFor(p: RankedPlayer, updated: set<string>, active: Option<string>): Row {
    SummaryRow(p.player.name, p.rank, p.player.won, p.player.trades, p.player.winRate, p.player.volume,
               p.player.name in updated, active == Some(p.player.name))
  }

  /** The collapsed details row that follows it (js/leaderboard.js:85-95). */
  function DetailsFor(p: RankedPlayer): Row {
    DetailsRow(p.player.wallet, p.player.joined)
  }

  /** The rows emitted for the ranked records, a summary row then a details row for each. */
  function RowsFor(ranked: seq<RankedPlayer>, updated: set<string>, active: Option<string>): (rows: seq<Row>)
    ensures |rows| == 2 * |ranked|
  {
    if ranked == [] then []
    else [SummaryFor(ranked[0], updated, active), DetailsFor(ranked[0])] + RowsFor(ranked[1..], updated, active)
  }

  /** Ranked record `k` owns rows `2k` and `2k + 1` of a rebuild. */
  lemma {:induction false} RowsOf(ranked: seq<RankedPlayer>, updated: set<string>, active: Option<string>, k: int)
    requires 0 <= k < |ranked|
    ensures var rows := RowsFor(ranked, updated, active);
      rows[2 * k] == SummaryFor(ranked[k], updated, active) && rows[2 * k + 1] == DetailsFor(ranked[k])
    decreases k
  {
    if k > 0 {
      var rest := RowsFor(ranked[1..], updated, active);
      RowsOf(ranked[1..], updated, active, k - 1);
      assert RowsFor(ranked, updated, active)[2 * k] == rest[2 * (k - 1)];
      assert RowsFor(ranked, updated, active)[2 * k + 1] == rest[2 * (k - 1) + 1];
    }
  }

  /** Row `i` of a rebuild is the summary or the details row of ranked record `k`. */
  lemma RowAt(ranked: seq<RankedPlayer>, updated: set<string>, active: Option<string>, i: int)
    returns (k: int, summary: bool)
    requires 0 <= i < 2 * |ranked|
    ensures 0 <= k < |ranked|
    ensures i == 2 * k + (if summary then 0 else 1)
    ensures var rows := RowsFor(ranked, updated, active);
      if summary then rows[i] == SummaryFor(ranked[k], updated, active)
      else rows[i] == DetailsFor(ranked[k])
  {
    k := i / 2;
    summary := i % 2 == 0;
    RowsOf(ranked, updated, active, k);
  }

  /**
   * The table after a rebuild and the updated-name set after it. The user
   * row is looked up, the name of the expanded row is read, the body is
   * cleared and refilled, and the set is cleared. Without a user row,
   * `appendChild(null)` throws right after the body was cleared: the body
   * stays empty and the set keeps its names.
   */
  function UpdateTable(body: seq<Row>, updated: set<string>, ranked: seq<RankedPlayer>): (r: (seq<Row>, set<string>))
    ensures FindUserRow(body).None? ==> r.0 == [] && r.1 == updated
    ensures FindUserRow(body).Some? ==>
      && r.1 == {}
      && |r.0| == 1 + 2 * |ranked|
      && r.0[0] == FindUserRow(body).value
      && (forall i :: 1 <= i < |r.0| ==> !r.0[i].UserRow?)
      && (forall k :: 0 <= k < |ranked| ==>
            && Shows(r.0[1 + 2 * k], ranked[k].player)
            && r.0[1 + 2 * k].rank == ranked[k].rank
            && (r.0[1 + 2 * k].flash <==> ranked[k].player.name in updated)
            && (r.0[1 + 2 * k].active <==> ActiveName(body) == Some(ranked[k].player.name))
            && r.0[2 + 2 * k] == DetailsRow(ranked[k].player.wallet, ranked[k].player.joined))
    ensures UniqueNames(PlayersOf(ranked)) ==> AtMostOneActive(r.0)
  {
    match FindUserRow(body)
    case None => ([], updated)
    case Some(userRow) =>
      RebuildShape(userRow, ranked, updated, ActiveName(body));
      ([userRow] + RowsFor(ranked, updated, ActiveName(body)), {})
  }

  /** The shape of a rebuilt table: the user row, then two rows per ranked record. */
  lemma RebuildShape(userRow: Row, ranked: seq<RankedPlayer>, updated: set<string>, active: Option<string>)
    requires userRow.UserRow?
    ensures var table := [userRow] + RowsFor(ranked, updated, active);
      && |table| == 1 + 2 * |ranked|
      && (forall i :: 1 <= i < |table| ==> !table[i].UserRow?)
      && (forall k :: 0 <= k < |ranked| ==>
            && Shows(table[1 + 2 * k], ranked[k].player)
            && table[1 + 2 * k].rank == ranked[k].rank
            && (table[1 + 2 * k].flash <==> ranked[k].player.name in updated)
            && (table[1 + 2 * k].active <==> active == Some(ranked[k].player.name))
            && table[2 + 2 * k] == DetailsRow(ranked[k].player.wallet, ranked[k].player.joined))
      && (UniqueNames(PlayersOf(ranked)) ==> AtMostOneActive(table))
  {
    var rows := RowsFor(ranked, updated, active);
    var table := [userRow] + rows;
    forall i | 1 <= i < |table| ensures !table[i].UserRow? {
      assert table[i] == rows[i - 1];
      var _, _ := RowAt(ranked, updated, active, i - 1);
    }
    forall k | 0 <= k < |ranked|
      ensures && Shows(table[1 + 2 * k], ranked[k].player)
              && table[1 + 2 * k].rank == ranked[k].rank
              && (table[1 + 2 * k].flash <==> ranked[k].player.name in updated)
              && (table[1 + 2 * k].active <==> active == Some(ranked[k].player.name))
              && table[2 + 2 * k] == DetailsRow(ranked[k].player.wallet, ranked[k].player.joined)
    {
      assert table[1 + 2 * k] == rows[2 * k] && table[2 + 2 * k] == rows[2 * k + 1];
      RowsOf(ranked, updated, active, k);
    }
    if UniqueNames(PlayersOf(ranked)) {
      RebuildHasOneActive(ranked, updated, active, userRow);
    }
  }

  /** With distinct names, at most one rebuilt row is marked active. */
  lemma RebuildHasOneActive(ranked: seq<RankedPlayer>, updated: set<string>, active: Option<string>, userRow: Row)
    requires userRow.UserRow?
    requires UniqueNames(PlayersOf(ranked))
    ensures AtMostOneActive([userRow] + RowsFor(ranked, updated, active))
  {
    var rows := RowsFor(ranked, updated, active);
    var table := [userRow] + rows;
    forall i, j | 0 <= i < |table| && 0 <= j < |table| && IsActive(table[i]) && IsActive(table[j])
      ensures i == j
    {
      var ki, si := RowAt(ranked, updated, active, i - 1);
      var kj, sj := RowAt(ranked, updated, active, j - 1);
      assert PlayersOf(ranked)[ki].name == PlayersOf(ranked)[kj].name;
    }
  }

  /** The expanded row stays expanded across a rebuild while its player is still listed. */
  lemma ActiveSurvivesRebuild(body: seq<Row>, updated: set<string>, ranked: seq<RankedPlayer>, k: int)
    requires FindUserRow(body).Some?
    requires UniqueNames(PlayersOf(ranked))
    requires 0 <= k < |ranked| && ActiveName(body) == Some(ranked[k].player.name)
    ensures var table := UpdateTable(body, updated, ranked).0;
      && ActiveName(table) == Some(ranked[k].player.name)
      && forall i :: 0 <= i < |table| ==> (IsActive(table[i]) <==> i == 1 + 2 * k)
  {
    var table := UpdateTable(body, updated, ranked).0;
    assert IsActive(table[1 + 2 * k]);
  }

  /** A rebuild leaves no row expanded when the expanded player is no longer listed. */
  lemma ActiveDropsWhenUnlisted(body: seq<Row>, updated: set<string>, ranked: seq<RankedPlayer>)
    requires ActiveName(body).Some?
    requires forall k :: 0 <= k < |ranked| ==> ranked[k].player.name != ActiveName(body).value
    ensures ActiveName(UpdateTable(body, updated, ranked).0).None?
  {
    var table := UpdateTable(body, updated, ranked).0;
    if FindUserRow(body).Some? {
      forall i | 0 <= i < |table| && table[i].SummaryRow? ensures !table[i].active {
        var k := SummaryRowIndex(body, updated, ranked, i);
        assert Shows(table[1 + 2 * k], ranked[k].player);
      }
    }
  }

  /** A summary row of a rebuilt table sits at `1 + 2k` for the ranked record `k` it shows. */
  lemma SummaryRowIndex(body: seq<Row>, updated: set<string>, ranked: seq<RankedPlayer>, a: int)
    returns (k: int)
    requires FindUserRow(body).Some?
    requires 0 <= a < |UpdateTable(body, updated, ranked).0|
    requires UpdateTable(body, updated, ranked).0[a].SummaryRow?
    ensures 0 <= k < |ranked| && a == 1 + 2 * k
  {
    var summary;
    k, summary := RowAt(ranked, updated, ActiveName(body), a - 1);
  }

  /**
   * With distinct names and a single updated name `n`, a rebuild makes only
   * the row of `n` flash.
   */
  lemma RebuildFlashesOnly(body: seq<Row>, n: string, ranked: seq<RankedPlayer>)
    requires FindUserRow(body).Some?
    requires UniqueNames(PlayersOf(ranked))
    ensures var table := UpdateTable(body, {n}, ranked).0;
      forall a, b :: 0 <= a < |table| && 0 <= b < |table| && IsFlashing(table[a]) && IsFlashing(table[b]) ==> a == b
  {
    var table := UpdateTable(body, {n}, ranked).0;
    forall a, b | 0 <= a < |table| && 0 <= b < |table| && IsFlashing(table[a]) && IsFlashing(table[b])
      ensures a == b
    {
      var ka := SummaryRowIndex(body, {n}, ranked, a);
      var kb := SummaryRowIndex(body, {n}, ranked, b);
      assert table[a].name == ranked[ka].player.name && ranked[ka].player.name in {n};
      assert table[b].name == ranked[kb].player.name && ranked[kb].player.name in {n};
      assert PlayersOf(ranked)[ka].name == PlayersOf(ranked)[kb].name;
    }
  }

  /** A rebuild makes the row of a listed record flash when its name was updated. */
  lemma FlashesListed(body: seq<Row>, n: string, ranked: seq<RankedPlayer>, p: Player)
    requires FindUserRow(body).Some?
    requires p in multiset(PlayersOf(ranked)) && p.name == n
    ensures var table := UpdateTable(body, {n}, ranked).0;
      exists i :: 0 <= i < |table| && IsFlashing(table[i]) && table[i].name == n
  {
    var k :| 0 <= k < |ranked| && PlayersOf(ranked)[k] == p;
    var table := UpdateTable(body, {n}, ranked).0;
    assert IsFlashing(table[1 + 2 * k]) && table[1 + 2 * k].name == n;
  }
}

=== FILE: wrappers.dfy ===
/** The optional-value datatype used for "no such row" and "no active row". */
module Wrappers {

  datatype Option<+T> = None | Some(value: T)
}
